=== FILE: README.md ===
# Clustered markers: marker reconciliation

A model of the application logic of the `randommarkers` activity, which shows a
hundred thousand points on a map by asking a clustering engine for the clusters
and single points inside the visible region at the current zoom, and then
bringing the map's markers in line with that answer. The model covers:

- the **reconciliation** in `updateMarkers`: remove every marker whose
  coordinate matches no cluster of the result; skip every cluster that a
  remaining marker already shows (same coordinate, tag equal to the cluster's
  `point_count`); add one marker for every other cluster;
- the **feature-to-marker mapping** of `addMarker`: a GeoJSON `[lng, lat]`
  position becomes `GeoPoint(lat, lng)`, a cluster's `point_count` becomes the
  marker's tag and, formatted, its caption; a single point gets neither;
- **`formatNumber`**, the caption text (`999`, `1K` for 1499, `2K` for 1500);
- **`boundsToBBox`**, the visible region as the engine's
  `[west, south, east, north]` query box.

Modules:

- `Wrappers` — `Option`, standing for Kotlin's nullable values (`None` is `null`).
- `Geo` — `GeoPoint`, `GeoBoundingBox`, `BoundsToBBox` and its inverse.
- `Decimal` — the decimal text of an integer (`Int.toString`) and its reading back.
- `Labels` — `int32` (Kotlin's `Int`), the rounding to thousands and `FormatNumber`.
- `Features` — the engine's output records (`Feature`), markers and `MarkerOf`.
- `MarkerReconciler` — the reconciliation as pure functions: `Kept`, `Removed`,
  `ToAdd`, `Reconcile` (the whole diff) and `Apply` (the map afterwards).
- `ReconcileProperties` — idempotence, the fixed point, the stale-count quirk,
  no deduplication, and the one-cluster scenario.
- `MarkerUpdate` — `updateMarkers` written as the activity runs it (the removal
  loop, the nested collection loop, `removeAll`, the `addMarker` loop), proved
  to leave exactly the markers `Apply` describes.

The map's marker collection is a sequence of marker values passed in and
returned; the engine's answer is an arbitrary sequence of features.
Coordinates are compared by value. A feature equal as a value to a shown one
gets the same skip decision, so whether `removeAll` compares features by
identity or by value does not change its outcome, and the model filters by value.

Counts and tags are Kotlin `Int` values (signed 32 bits), since the code casts the
count to `Int` (line 132 of `MainActivity.kt`), rather than unsigned counts. The code tests the skip condition against the
markers that survived the removal loop rather than against the markers shown
before it; `SkipDecisionUnchangedByRemoval` proves the two decide the same.

## Model

| member | source | states |
|---|---|---|
| Geo.BoundsToBBox | app/src/main/java/com/example/randommarkers/MainActivity.kt:155-162 | the query box has four entries and selects exactly the points inside the visible region, a west edge east of the east edge meaning a span across the antimeridian on both sides; its west edge is not east of its east edge and its south edge not north of its north edge exactly when the corners are north-west and south-east |
| Geo.BBoxDeterminedByRegion | app/src/main/java/com/example/randommarkers/MainActivity.kt:155-162 | for a region with at least one latitude in it, the box of `boundsToBBox` is the only four-entry box selecting the same points, across the antimeridian too, so the field order `[west, south, east, north]` is pinned |
| Geo.BBoxToBounds | app/src/main/java/com/example/randommarkers/MainActivity.kt:155-162 | every four-entry query box is the box of the region it reads back as |
| Geo.BoundsRoundTrip | app/src/main/java/com/example/randommarkers/MainActivity.kt:155-162 | converting a region to a query box loses nothing: both corners come back |
| Decimal.NatDigits | app/src/main/java/com/example/randommarkers/MainActivity.kt:168 | the text of a non-negative number is canonical (digits only, no leading zero unless it is exactly "0") and has that number as its value |
| Decimal.DecimalString | app/src/main/java/com/example/randommarkers/MainActivity.kt:168 | the text of an integer is canonical; it starts with a minus sign exactly when the integer is negative, and the rest is the canonical digits of the magnitude |
| Decimal.CanonicalDigitsAreNatDigits | app/src/main/java/com/example/randommarkers/MainActivity.kt:168 | a canonical digit string is the text of its own value, so no other spelling of a number is canonical |
| Decimal.CanonicalUnique | app/src/main/java/com/example/randommarkers/MainActivity.kt:168 | two canonical texts that read as the same number are equal: the text `Int.toString` gives is the only canonical one |
| Decimal.DecimalRoundTrip | app/src/main/java/com/example/randommarkers/MainActivity.kt:168 | the decimal text of every integer reads back as that integer |
| Labels.Thousands | app/src/main/java/com/example/randommarkers/MainActivity.kt:166 | the result is n/1000 rounded to the nearest integer with halves rounded up: it lies within (n/1000 - 1/2, n/1000 + 1/2] |
| Labels.FormatNumber | app/src/main/java/com/example/randommarkers/MainActivity.kt:164-170 | below 1000 the caption is the canonical decimal text of the number; from 1000 on it is a canonical decimal number followed by "K", and that number is the count of thousands rounded half up |
| Labels.FormatNumberExamples | app/src/main/java/com/example/randommarkers/MainActivity.kt:164-170 | 999 gives "999", 1499 gives "1K", 1500 gives "2K", 1000000 gives "1000K" |
| Features.CoordinateInjective | app/src/main/java/com/example/randommarkers/MainActivity.kt:84-87 | two features have the same map coordinate exactly when they have the same `[lng, lat]` position, so the coordinate tests of the reconciliation compare positions |
| Features.MarkerOf | app/src/main/java/com/example/randommarkers/MainActivity.kt:122-144 | the new marker sits at the feature's coordinate, has a tag and a caption exactly when the feature is a cluster, the caption being `formatNumber` of its count, and is recognised by the skip test as showing exactly the features at its place with its count |
| Features.MarkersFor | app/src/main/java/com/example/randommarkers/MainActivity.kt:104-115 | the add loop makes one `addMarker` marker per remaining feature, in order; each new marker passes the skip test of line 104 for its own feature, and every new marker shows some feature that was left to add |
| MarkerReconciler.ClusterCoords | app/src/main/java/com/example/randommarkers/MainActivity.kt:84-87 | one coordinate per cluster in result order; a coordinate is among them exactly when some cluster of the result sits there |
| MarkerReconciler.Kept | app/src/main/java/com/example/randommarkers/MainActivity.kt:89-94 | a marker stays exactly when its coordinate is among the cluster coordinates |
| MarkerReconciler.Removed | app/src/main/java/com/example/randommarkers/MainActivity.kt:89-94 | a marker is removed exactly when its coordinate is among none of the cluster coordinates |
| MarkerReconciler.KeptCounts | app/src/main/java/com/example/randommarkers/MainActivity.kt:89-94 | a marker at a cluster coordinate is kept as often as it is on the map, any other not at all |
| MarkerReconciler.RemovedCounts | app/src/main/java/com/example/randommarkers/MainActivity.kt:89-94 | a marker at no cluster coordinate is removed as often as it is on the map, any other not at all |
| MarkerReconciler.ToAdd | app/src/main/java/com/example/randommarkers/MainActivity.kt:96-110 | a cluster is left to add exactly when no marker shows it (same coordinate, tag equal to its count) |
| MarkerReconciler.ToAddCounts | app/src/main/java/com/example/randommarkers/MainActivity.kt:96-110 | no deduplication: a cluster no marker shows is left to add once for every time it occurs in the result, a shown one not at all |
| MarkerReconciler.SkipDecisionUnchangedByRemoval | app/src/main/java/com/example/randommarkers/MainActivity.kt:90-107 | for a cluster of the result, testing the skip condition against the surviving markers decides the same as testing it against all markers that were on the map |
| MarkerReconciler.Reconcile | app/src/main/java/com/example/randommarkers/MainActivity.kt:84-110 | a marker is removed exactly when no cluster has its coordinate, whatever its tag, and kept otherwise; a cluster is added exactly when no marker on the map already has its coordinate and count |
| MarkerReconciler.ReconcileCounts | app/src/main/java/com/example/randommarkers/MainActivity.kt:84-110 | kept and removed markers together are the markers on the map, with multiplicity; a cluster no marker shows is added once per occurrence in the result |
| MarkerReconciler.Apply | app/src/main/java/com/example/randommarkers/MainActivity.kt:84-115 | after an update, a marker that was on the map is still there exactly when some cluster or point of the result sits at its coordinate; every cluster or point no marker showed has its `addMarker` marker on the map; nothing else is added, since every new marker is the marker of a feature no marker showed; and the map holds, copy for copy, the kept markers plus one marker per feature left to add |
| ReconcileProperties.KeptAll | app/src/main/java/com/example/randommarkers/MainActivity.kt:89-94 | when every marker sits at a cluster coordinate the removal loop keeps all of them, in order |
| ReconcileProperties.UpdatedMapMatchesResult | app/src/main/java/com/example/randommarkers/MainActivity.kt:84-144 | after an update every marker sits on a cluster or point of the result and every cluster or point of the result is shown |
| ReconcileProperties.SecondUpdateRemovesNothing | app/src/main/java/com/example/randommarkers/MainActivity.kt:84-144 | running the reconciliation again on the updated map with the same result removes nothing |
| ReconcileProperties.SecondUpdateAddsNothing | app/src/main/java/com/example/randommarkers/MainActivity.kt:84-144 | running the reconciliation again on the updated map with the same result adds nothing |
| ReconcileProperties.ApplyIsFixedPoint | app/src/main/java/com/example/randommarkers/MainActivity.kt:84-144 | a second update with the same result keeps every marker, in order, and so leaves the map as the first update left it |
| ReconcileProperties.StaleMarkerSurvives | app/src/main/java/com/example/randommarkers/MainActivity.kt:89-115 | a marker at a still-present coordinate with a tag other than the cluster's count is kept, and the cluster gets a new, different marker at the same coordinate |
| ReconcileProperties.CoincidentClustersBothAdded | app/src/main/java/com/example/randommarkers/MainActivity.kt:100-115 | two unshown clusters at one coordinate are both added; when they are equal records the feature is added twice |
| ReconcileProperties.SingleClusterScenario | app/src/main/java/com/example/randommarkers/MainActivity.kt:84-144 | one cluster of five on an empty map is added and nothing removed; with its marker on the map nothing is removed or added |
| MarkerUpdate.RemoveStaleMarkers | app/src/main/java/com/example/randommarkers/MainActivity.kt:89-94 | the removal loop (a marker goes when every cluster coordinate differs from its own) leaves exactly the kept markers, in order |
| MarkerUpdate.CollectIfShown | app/src/main/java/com/example/randommarkers/MainActivity.kt:103-107 | the inner loop adds the cluster to the collected ones exactly when some surviving marker shows it |
| MarkerUpdate.CollectShown | app/src/main/java/com/example/randommarkers/MainActivity.kt:98-108 | the collected clusters are clusters of the result, and a cluster of the result is collected exactly when a surviving marker shows it |
| MarkerUpdate.RemoveShown | app/src/main/java/com/example/randommarkers/MainActivity.kt:110 | removing the collected clusters from the result leaves exactly the clusters to add, in result order |
| MarkerUpdate.AddMarkers | app/src/main/java/com/example/randommarkers/MainActivity.kt:112-115 | the add loop appends one marker per remaining cluster, in order, after the surviving markers |
| MarkerUpdate.UpdateMarkers | app/src/main/java/com/example/randommarkers/MainActivity.kt:84-115 | the loops of `updateMarkers` leave on the map exactly the markers the reconciliation describes |

## Left out

- The clustering engine (`SuperCluster`: index build, `getClusters`, zoom clamping, antimeridian handling) and its configuration (radius 40, extent 256, zooms 0 to 14, node size 64): it is a third-party library whose source is not part of this model; its answer is an arbitrary sequence of features.
- Map and fragment creation, `getMapAsync`, marker fading/shrinking switches and the camera-steady listener: user-interface event plumbing of the map SDK.
- Pin images, caption colour and offset in `addMarker`: presentation only; the marker keeps its coordinate, tag and caption text.
- Random demo data (`initCluster`): it depends on randomness and floating point. Note that `0..NUM_MARKERS` is an inclusive range, so it creates 100001 points, not 100000.
- `getBoundingBoxCenter` and the truncation `zoom.toInt()`: floating-point arithmetic.
- Coordinates are `real` values compared with mathematical equality; IEEE double equality (NaN, signed zero) and rounding are not modelled.
- Features.MarkerOf: the `as Int` cast of `point_count` (line 132) failing is not modelled; the clustering engine is taken to store `point_count` as an `Int`, so a count of any other type, which would throw, cannot occur in the model.
- Features.Coordinate: the geometry is always a two-entry point; the `as Point` cast failing and a coordinate array shorter than two (which would throw) are not modelled.
- Labels.Thousands: computes the rounding exactly on integers instead of in double precision; for every value an `Int` can hold the two agree, since no quotient lies closer than 1/1000 to a half unless it is exactly a half.
- The order of the map's marker collection: the model lists kept markers in their previous order followed by the new markers; the map's own order is not observable here.
- Markers added to the map by anything other than `addMarker`: every marker's tag is assumed to be `null` or an `Int` count.

=== FILE: decimal.dfy ===
/** Decimal text of integers, as Kotlin's `Int.toString` writes it, and its reading back. */
module Decimal {
  import opened Wrappers

  predicate IsDigit(ch: char) {
    '0' <= ch <= '9'
  }

  predicate AllDigits(s: string) {
    forall i :: 0 <= i < |s| ==> IsDigit(s[i])
  }

  function DigitValue(ch: char): (d: nat)
    requires IsDigit(ch)
    ensures d < 10
  {
    ch as int - '0' as int
  }

  function DigitChar(d: nat): (ch: char)
    requires d < 10
    ensures IsDigit(ch) && DigitValue(ch) == d
  {
    ('0' as int + d) as char
  }

  /** Digits with no leading zero: the form `Int.toString` gives a non-negative number. */
  predicate CanonicalDigits(s: string) {
    |s| > 0 && AllDigits(s) && (|s| > 1 ==> s[0] != '0')
  }

  /** The form `Int.toString` gives any number: canonical digits, after a minus sign only
      when they are not "0". */
  predicate Canonical(s: string) {
    || CanonicalDigits(s)
    || (|s| > 1 && s[0] == '-' && CanonicalDigits(s[1..]) && s[1..] != "0")
  }

  /** The value of a string of decimal digits, most significant digit first. */
  function DigitsValue(s: string): nat
    requires AllDigits(s)
  {
    if |s| == 0 then 0 else 10 * DigitsValue(s[..|s| - 1]) + DigitValue(s[|s| - 1])
  }

  /** The digits of a non-negative number without leading zeros ("0" for zero). */
  function NatDigits(n: nat): (s: string)
    ensures CanonicalDigits(s)
    ensures s[0] == '0' ==> n == 0
    ensures DigitsValue(s) == n
    decreases n
  {
    if n < 10 then [DigitChar(n)]
    else
      var s := NatDigits(n / 10) + [DigitChar(n % 10)];
      assert s[..|s| - 1] == NatDigits(n / 10);
      assert s[0] == NatDigits(n / 10)[0];
      s
  }

  /** `Int.toString`: a minus sign for negative numbers, then the digits of the magnitude. */
  function DecimalString(n: int): (s: string)
    ensures Canonical(s)
    ensures n < 0 <==> s[0] == '-'
    ensures n < 0 ==> s[1..] == NatDigits(-n)
    ensures n >= 0 ==> s == NatDigits(n)
  {
    if n < 0 then
      var s := "-" + NatDigits(-n);
      assert s[1..] == NatDigits(-n);
      s
    else NatDigits(n)
  }

  /** Reads an optional minus sign followed by at least one digit; anything else is `None`. */
  function ParseDecimal(s: string): Option<int> {
    if |s| > 1 && s[0] == '-' && AllDigits(s[1..]) then Some(-(DigitsValue(s[1..]) as int))
    else if |s| > 0 && AllDigits(s) then Some(DigitsValue(s))
    else None
  }

  /** The decimal text of every integer reads back as that integer. */
  lemma {:induction false} DecimalRoundTrip(n: int)
    ensures ParseDecimal(DecimalString(n)) == Some(n)
  {
  }

  /** A non-empty digit string with no leading zero is worth at least one unless it is "0". */
  lemma {:induction false} LeadingDigitPositive(s: string)
    requires AllDigits(s) && |s| > 0 && s[0] != '0'
    ensures DigitsValue(s) >= 1
  {
    if |s| > 1 {
      LeadingDigitPositive(s[..|s| - 1]);
    }
  }

  /** Canonical digits are the digits of their own value: no other spelling is canonical. */
  lemma {:induction false} CanonicalDigitsAreNatDigits(s: string)
    requires CanonicalDigits(s)
    ensures s == NatDigits(DigitsValue(s))
  {
    var init, last := s[..|s| - 1], s[|s| - 1];
    if |s| == 1 {
      assert DigitChar(DigitValue(last)) == last;
    } else {
      assert init[0] == s[0];
      LeadingDigitPositive(init);
      CanonicalDigitsAreNatDigits(init);
      assert DigitChar(DigitValue(last)) == last;
      assert s == init + [last];
    }
  }

  /** Two canonical texts that read as the same number are the same text, so the canonical
      form of a number is unique. */
  lemma CanonicalUnique(s: string, t: string)
    requires Canonical(s) && Canonical(t)
    requires ParseDecimal(s) == ParseDecimal(t)
    ensures s == t
  {
    if s[0] == '-' {
      CanonicalDigitsAreNatDigits(s[1..]);
    } else {
      CanonicalDigitsAreNatDigits(s);
    }
    if t[0] == '-' {
      CanonicalDigitsAreNatDigits(t[1..]);
    } else {
      CanonicalDigitsAreNatDigits(t);
    }
    assert !IsDigit('-');
    if s[0] == '-' && t[0] == '-' {
      assert s == "-" + s[1..] && t == "-" + t[1..];
    }
  }
}

=== FILE: features.dfy ===
/** The clustering engine's output records and the markers drawn for them (`addMarker`). */
module Features {
  import opened Wrappers
  import opened Geo
  import opened Labels

  /** A GeoJSON point position: longitude first, then latitude. */
  datatype Position = Position(lng: real, lat: real)

  /** One entry of the engine's result: a cluster (it has a `point_count`) or a single
      input point (it has none). */
  datatype Feature = Feature(geometry: Position, pointCount: Option<int32>)

  /** A marker on the map: where it sits, its tag and the text on its pin. */
  datatype Marker = Marker(coordinate: GeoPoint, tag: Option<int32>, caption: Option<string>)

  predicate IsCluster(f: Feature) {
    f.pointCount.Some?
  }

  /** The map coordinate of a feature: its `[lng, lat]` position read as `GeoPoint(lat, lng)`.
      Both the cluster coordinates of the reconciliation and new markers use it. */
  function Coordinate(f: Feature): GeoPoint {
    GeoPoint(f.geometry.lat, f.geometry.lng)
  }

  /** Two features have the same map coordinate exactly when they have the same `[lng, lat]`
      position: the coordinate tests of the reconciliation compare positions, nothing less. */
  lemma CoordinateInjective(f: Feature, g: Feature)
    ensures Coordinate(f) == Coordinate(g) <==> f.geometry == g.geometry
  {
  }

  /** The reconciliation's test that a marker already shows a feature: same coordinate,
      and a tag equal to the feature's `point_count` (no tag matches no count). */
  predicate Represents(m: Marker, f: Feature) {
    m.coordinate == Coordinate(f) && m.tag == f.pointCount
  }

  /** `addMarker`: the marker created for a feature. A cluster gets its count as tag and
      the formatted count as caption; a single point gets neither. The new marker is one
      the reconciliation recognises as showing the feature, and it shows no other feature
      than those at the same place with the same count. */
  function MarkerOf(f: Feature): (m: Marker)
    ensures m.coordinate.latitude == f.geometry.lat && m.coordinate.longitude == f.geometry.lng
    ensures m.tag.Some? <==> IsCluster(f)
    ensures m.caption.Some? <==> IsCluster(f)
    ensures IsCluster(f) ==> m.caption == Some(FormatNumber(f.pointCount.value))
    ensures forall g :: Represents(m, g) <==> Coordinate(g) == Coordinate(f) && g.pointCount == f.pointCount
  {
    match f.pointCount
    case Some(count) => Marker(Coordinate(f), f.pointCount, Some(FormatNumber(count)))
    case None => Marker(Coordinate(f), None, None)
  }

  /** The markers created for a sequence of features, one each, in order. Each new marker
      passes the reconciliation's skip test for its own feature, and every new marker shows
      some feature of the sequence. */
  function MarkersFor(fs: seq<Feature>): (ms: seq<Marker>)
    ensures |ms| == |fs|
    ensures forall i :: 0 <= i < |fs| ==> ms[i] == MarkerOf(fs[i])
    ensures forall i :: 0 <= i < |fs| ==> Represents(ms[i], fs[i])
    ensures forall m :: m in ms ==> exists f :: f in fs && Represents(m, f)
  {
    seq(|fs|, i requires 0 <= i < |fs| => MarkerOf(fs[i]))
  }
}

=== FILE: geo.dfy ===
/** Geographic points and the viewport rectangle handed to the clustering engine. */
module Geo {

  /** A map coordinate. Coordinates are compared by value, as `GeoPoint` equality does. */
  datatype GeoPoint = GeoPoint(latitude: real, longitude: real)

  /** The visible region of the map: its north-west and south-east corners. */
  datatype GeoBoundingBox = GeoBoundingBox(topLeft: GeoPoint, bottomRight: GeoPoint)

  /** `x` lies between `lo` and `hi`, both included. */
  predicate InRange(lo: real, hi: real, x: real) {
    lo <= x <= hi
  }

  /** The longitude `x` lies between the west edge and the east edge. A west edge east of
      the east edge is a span across the antimeridian: everything from the west edge on,
      and everything up to the east edge. */
  predicate InLongitudes(west: real, east: real, x: real) {
    if west <= east then west <= x <= east else west <= x || x <= east
  }

  /** The corners are the north-west and south-east corners of a region that does not
      cross the antimeridian. */
  predicate WellOriented(bounds: GeoBoundingBox) {
    && bounds.bottomRight.latitude <= bounds.topLeft.latitude
    && bounds.topLeft.longitude <= bounds.bottomRight.longitude
  }

  /** The point lies inside the region (edges included); a region whose west corner is
      east of its east corner spans the antimeridian. */
  predicate Contains(bounds: GeoBoundingBox, p: GeoPoint) {
    && InRange(bounds.bottomRight.latitude, bounds.topLeft.latitude, p.latitude)
    && InLongitudes(bounds.topLeft.longitude, bounds.bottomRight.longitude, p.longitude)
  }

  /** The query box of the clustering engine, `[west, south, east, north]`, contains the
      position `(lng, lat)`; a west edge east of the east edge spans the antimeridian. */
  predicate BBoxContains(bbox: seq<real>, lng: real, lat: real)
    requires |bbox| == 4
  {
    InLongitudes(bbox[0], bbox[2], lng) && InRange(bbox[1], bbox[3], lat)
  }

  /** `boundsToBBox`: the visible region as the engine's `[west, south, east, north]` array.
      The box selects exactly the points of the region, across the antimeridian too, and a
      north-west/south-east pair of corners gives a box whose west edge is not east of its
      east edge and whose south edge is not north of its north edge. */
  function BoundsToBBox(bounds: GeoBoundingBox): (bbox: seq<real>)
    ensures |bbox| == 4
    ensures forall p :: Contains(bounds, p) <==> BBoxContains(bbox, p.longitude, p.latitude)
    ensures WellOriented(bounds) <==> bbox[0] <= bbox[2] && bbox[1] <= bbox[3]
  {
    [bounds.topLeft.longitude, bounds.bottomRight.latitude,
     bounds.bottomRight.longitude, bounds.topLeft.latitude]
  }

  /** The inverse reading of an engine box as a pair of corners. */
  function BBoxToBounds(bbox: seq<real>): (bounds: GeoBoundingBox)
    requires |bbox| == 4
    ensures BoundsToBBox(bounds) == bbox
  {
    GeoBoundingBox(GeoPoint(bbox[3], bbox[0]), GeoPoint(bbox[1], bbox[2]))
  }

  /** Converting the region to a box loses nothing: the corners come back unchanged. */
  lemma BoundsRoundTrip(bounds: GeoBoundingBox)
    ensures BBoxToBounds(BoundsToBBox(bounds)) == bounds
  {
  }

  /** A non-empty latitude range is determined by the latitudes it holds. */
  lemma RangeDetermined(lo: real, hi: real, lo': real, hi': real)
    requires lo <= hi
    requires forall x :: InRange(lo, hi, x) <==> InRange(lo', hi', x)
    ensures lo == lo' && hi == hi'
  {
    assert InRange(lo, hi, lo) && InRange(lo, hi, hi);
    assert InRange(lo', hi', lo) && InRange(lo', hi', hi);
    assert InRange(lo', hi', lo') && InRange(lo', hi', hi');
  }

  /** A longitude span, plain or across the antimeridian, is determined by the longitudes
      it holds. */
  lemma LongitudesDetermined(w: real, e: real, w': real, e': real)
    requires forall x :: InLongitudes(w, e, x) <==> InLongitudes(w', e', x)
    ensures w == w' && e == e'
  {
    assert InLongitudes(w, e, w) && InLongitudes(w, e, e);
    assert InLongitudes(w', e', w') && InLongitudes(w', e', e');
    if w <= e {
      if w' <= e' {
        assert InLongitudes(w, e, w') && InLongitudes(w, e, e');
      } else {
        var x := if w' > e then w' else e + 1.0;
        assert InLongitudes(w', e', x);
      }
    } else {
      if w' <= e' {
        var x := if w > e' then w else e' + 1.0;
        assert InLongitudes(w, e, x);
      } else {
        var mid, mid' := (e + w) / 2.0, (e' + w') / 2.0;
        assert !InLongitudes(w, e, mid) && !InLongitudes(w', e', mid');
        assert !InLongitudes(w', e', mid) && !InLongitudes(w, e, mid');
        assert InLongitudes(w', e', e) && InLongitudes(w, e, e');
        assert InLongitudes(w', e', w) && InLongitudes(w, e, w');
      }
    }
  }

  /** The box of a region with at least one latitude in it is the only four-entry box that
      selects the same points: the contract of `BoundsToBBox` pins which corner field lands
      in which entry, for regions across the antimeridian too. */
  lemma BBoxDeterminedByRegion(bounds: GeoBoundingBox, bbox: seq<real>)
    requires bounds.bottomRight.latitude <= bounds.topLeft.latitude
    requires |bbox| == 4
    requires forall p :: Contains(bounds, p) <==> BBoxContains(bbox, p.longitude, p.latitude)
    ensures bbox == BoundsToBBox(bounds)
  {
    var south, north := bounds.bottomRight.latitude, bounds.topLeft.latitude;
    var west, east := bounds.topLeft.longitude, bounds.bottomRight.longitude;
    assert Contains(bounds, GeoPoint(south, west));
    forall x
      ensures InRange(south, north, x) <==> InRange(bbox[1], bbox[3], x)
    {
      assert Contains(bounds, GeoPoint(x, west)) <==> BBoxContains(bbox, west, x);
    }
    RangeDetermined(south, north, bbox[1], bbox[3]);
    forall x
      ensures InLongitudes(west, east, x) <==> InLongitudes(bbox[0], bbox[2], x)
    {
      assert Contains(bounds, GeoPoint(south, x)) <==> BBoxContains(bbox, x, south);
    }
    LongitudesDetermined(west, east, bbox[0], bbox[2]);
  }
}

=== FILE: labels.dfy ===
/** The text shown on a cluster marker: `formatNumber`. */
module Labels {
  import opened Wrappers
  import opened Decimal

  /** Kotlin's `Int`. */
  newtype int32 = x: int | -0x8000_0000 <= x < 0x8000_0000

  /** `(n / 1000.0).roundToInt()` for a non-negative `n`: the quotient rounded to the nearest
      integer, halves rounded up. For the values an `Int` can hold the double quotient is
      never far enough from the exact one to change the rounding. */
  function Thousands(n: nat): (k: nat)
    ensures k as real - 0.5 <= n as real / 1000.0 < k as real + 0.5
  {
    var k := (n + 500) / 1000;
    var r := (n + 500) % 1000;
    assert n == 1000 * k + r - 500;
    assert n as real / 1000.0 == k as real + (r - 500) as real / 1000.0;
    k
  }

  /** `formatNumber`: numbers below 1000 are written out in full; from 1000 on, the
      number of thousands rounded half up, followed by "K". */
  function FormatNumber(num: int32): (text: string)
    ensures num < 1000 ==> Canonical(text) && ParseDecimal(text) == Some(num as int)
    ensures num >= 1000 ==>
      && |text| > 1
      && text[|text| - 1] == 'K'
      && Canonical(text[..|text| - 1])
      && var k := ParseDecimal(text[..|text| - 1]);
         && k.Some?
         && k.value as real - 0.5 <= num as real / 1000.0 < k.value as real + 0.5
  {
    if num >= 1000 then
      var k := Thousands(num as int);
      DecimalRoundTrip(k);
      var text := DecimalString(k) + "K";
      assert text[..|text| - 1] == DecimalString(k);
      text
    else
      DecimalRoundTrip(num as int);
      DecimalString(num as int)
  }

  /** The examples of the label format: 999, 1499, 1500 and a million. */
  lemma FormatNumberExamples()
    ensures FormatNumber(999) == "999"
    ensures FormatNumber(1499) == "1K"
    ensures FormatNumber(1500) == "2K"
    ensures FormatNumber(1000000) == "1000K"
  {
  }
}

=== FILE: reconcile.dfy ===
/** The marker reconciliation of `updateMarkers`: given the markers on the map and the
    clusters and points the engine returned for the viewport, which markers go, which stay,
    and which features get a new marker. */
module MarkerReconciler {
  import opened Geo
  import opened Features

  /** Some cluster or point of the result sits at `p`. */
  predicate HasClusterAt(clusters: seq<Feature>, p: GeoPoint) {
    exists c :: c in clusters && Coordinate(c) == p
  }

  /** Some marker already shows `c`: this is the test that drops `c` from the additions. */
  predicate AlreadyShown(markers: seq<Marker>, c: Feature) {
    exists m :: m in markers && Represents(m, c)
  }

  /** `clusterCoords`: the coordinate of every cluster, in result order. */
  function ClusterCoords(clusters: seq<Feature>): (coords: seq<GeoPoint>)
    ensures |coords| == |clusters|
    ensures forall i :: 0 <= i < |clusters| ==> coords[i] == Coordinate(clusters[i])
    ensures forall p :: p in coords <==> HasClusterAt(clusters, p)
  {
    var coords := seq(|clusters|, i requires 0 <= i < |clusters| => Coordinate(clusters[i]));
    assert forall i :: 0 <= i < |clusters| ==> coords[i] == Coordinate(clusters[i]);
    coords
  }

  /** The markers that stay: those at one of the coordinates. */
  function Kept(markers: seq<Marker>, coords: seq<GeoPoint>): (kept: seq<Marker>)
    ensures forall m :: m in kept <==> m in markers && m.coordinate in coords
  {
    if |markers| == 0 then []
    else
      var last := markers[|markers| - 1];
      assert markers == markers[..|markers| - 1] + [last];
      var rest := Kept(markers[..|markers| - 1], coords);
      if last.coordinate in coords then rest + [last] else rest
  }

  /** The markers that are removed: those at none of the coordinates. */
  function Removed(markers: seq<Marker>, coords: seq<GeoPoint>): (removed: seq<Marker>)
    ensures forall m :: m in removed <==> m in markers && m.coordinate !in coords
  {
    if |markers| == 0 then []
    else
      var last := markers[|markers| - 1];
      assert markers == markers[..|markers| - 1] + [last];
      var rest := Removed(markers[..|markers| - 1], coords);
      if last.coordinate in coords then rest else rest + [last]
  }

  /** The features that need a marker: those no marker of `shown` shows yet. */
  function ToAdd(shown: seq<Marker>, clusters: seq<Feature>): (toAdd: seq<Feature>)
    ensures forall c :: c in toAdd <==> c in clusters && !AlreadyShown(shown, c)
  {
    if |clusters| == 0 then []
    else
      var last := clusters[|clusters| - 1];
      assert clusters == clusters[..|clusters| - 1] + [last];
      var rest := ToAdd(shown, clusters[..|clusters| - 1]);
      if AlreadyShown(shown, last) then rest else rest + [last]
  }

  /** The outcome of one reconciliation: markers to remove, markers that stay, and the
      features that each get a new marker. */
  datatype Reconciliation = Reconciliation(toRemove: seq<Marker>, kept: seq<Marker>, toAdd: seq<Feature>)

  /** Each marker at one of the coordinates is kept as often as it is on the map; the
      others not at all. */
  lemma {:induction false} KeptCounts(markers: seq<Marker>, coords: seq<GeoPoint>)
    ensures forall m :: multiset(Kept(markers, coords))[m] == if m.coordinate in coords then multiset(markers)[m] else 0
  {
    if |markers| > 0 {
      var init, last := markers[..|markers| - 1], markers[|markers| - 1];
      assert markers == init + [last];
      KeptCounts(init, coords);
    }
  }

  /** Each marker at none of the coordinates is removed as often as it is on the map; the
      others not at all. */
  lemma {:induction false} RemovedCounts(markers: seq<Marker>, coords: seq<GeoPoint>)
    ensures forall m :: multiset(Removed(markers, coords))[m] == if m.coordinate in coords then 0 else multiset(markers)[m]
  {
    if |markers| > 0 {
      var init, last := markers[..|markers| - 1], markers[|markers| - 1];
      assert markers == init + [last];
      RemovedCounts(init, coords);
    }
  }

  /** No deduplication: a feature not yet shown is left to add as often as it occurs in the
      result; a shown one not at all. */
  lemma {:induction false} ToAddCounts(shown: seq<Marker>, clusters: seq<Feature>)
    ensures forall c :: multiset(ToAdd(shown, clusters))[c] == if AlreadyShown(shown, c) then 0 else multiset(clusters)[c]
  {
    if |clusters| > 0 {
      var init, last := clusters[..|clusters| - 1], clusters[|clusters| - 1];
      assert clusters == init + [last];
      ToAddCounts(shown, init);
    }
  }

  /** Checking the skip test against the markers that survived the removal (as `updateMarkers`
      does) decides the same as checking it against all markers: a removed marker sits at
      no cluster's coordinate, so it shows no cluster. */
  lemma SkipDecisionUnchangedByRemoval(displayed: seq<Marker>, clusters: seq<Feature>, c: Feature)
    requires c in clusters
    ensures AlreadyShown(Kept(displayed, ClusterCoords(clusters)), c) <==> AlreadyShown(displayed, c)
  {
    var coords := ClusterCoords(clusters);
    if AlreadyShown(displayed, c) {
      var m :| m in displayed && Represents(m, c);
      assert m.coordinate in coords;
      assert m in Kept(displayed, coords);
    }
  }

  /** `updateMarkers` minus the drawing: a marker is removed exactly when no cluster or point
      of the result has its coordinate, whatever its tag, and kept otherwise; a feature gets
      a new marker exactly when no marker on the map already has its coordinate and its
      count. */
  function Reconcile(displayed: seq<Marker>, clusters: seq<Feature>): (r: Reconciliation)
    ensures forall m :: m in r.toRemove <==> m in displayed && !HasClusterAt(clusters, m.coordinate)
    ensures forall m :: m in r.kept <==> m in displayed && HasClusterAt(clusters, m.coordinate)
    ensures forall c :: c in r.toAdd <==> c in clusters && !AlreadyShown(displayed, c)
  {
    var coords := ClusterCoords(clusters);
    var kept := Kept(displayed, coords);
    var toAdd := ToAdd(kept, clusters);
    forall c | c in clusters
      ensures AlreadyShown(kept, c) <==> AlreadyShown(displayed, c)
    {
      SkipDecisionUnchangedByRemoval(displayed, clusters, c);
    }
    Reconciliation(Removed(displayed, coords), kept, toAdd)
  }

  /** The counts behind the reconciliation: kept and removed markers together are the
      markers on the map, with multiplicity, and a feature not yet shown is added once for
      every time it occurs in the result. */
  lemma ReconcileCounts(displayed: seq<Marker>, clusters: seq<Feature>)
    ensures multiset(Reconcile(displayed, clusters).kept) + multiset(Reconcile(displayed, clusters).toRemove)
         == multiset(displayed)
    ensures forall c ::
              multiset(Reconcile(displayed, clusters).toAdd)[c]
              == if AlreadyShown(displayed, c) then 0 else multiset(clusters)[c]
  {
    var coords := ClusterCoords(clusters);
    var kept, removed := Kept(displayed, coords), Removed(displayed, coords);
    KeptCounts(displayed, coords);
    RemovedCounts(displayed, coords);
    ToAddCounts(kept, clusters);
    assert multiset(kept) + multiset(removed) == multiset(displayed) by {
      forall m
        ensures (multiset(kept) + multiset(removed))[m] == multiset(displayed)[m]
      {
      }
    }
    forall c
      ensures multiset(ToAdd(kept, clusters))[c] == if AlreadyShown(displayed, c) then 0 else multiset(clusters)[c]
    {
      if c in clusters {
        SkipDecisionUnchangedByRemoval(displayed, clusters, c);
      }
    }
  }

  /** The markers on the map after `updateMarkers`: the kept ones, then one new marker for
      each feature to add. A marker that was on the map is still there exactly when some
      cluster or point of the result sits at its coordinate, and every cluster or point no
      marker showed gets the marker `addMarker` makes for it. Nothing else is added: a
      marker that is new is the marker of some feature no marker showed, and there is one new
      marker per feature left to add, so every kept marker keeps each of its copies. */
  function Apply(displayed: seq<Marker>, clusters: seq<Feature>): (shown: seq<Marker>)
    ensures forall m :: m in displayed ==> (m in shown <==> HasClusterAt(clusters, m.coordinate))
    ensures forall c :: c in clusters && !AlreadyShown(displayed, c) ==> MarkerOf(c) in shown
    ensures forall m :: m in shown && m !in displayed ==>
              exists c :: c in clusters && !AlreadyShown(displayed, c) && m == MarkerOf(c)
    ensures |shown| == |Reconcile(displayed, clusters).kept| + |Reconcile(displayed, clusters).toAdd|
    ensures multiset(shown) == multiset(Reconcile(displayed, clusters).kept)
                               + multiset(MarkersFor(Reconcile(displayed, clusters).toAdd))
  {
    var r := Reconcile(displayed, clusters);
    var added := MarkersFor(r.toAdd);
    assert forall m :: m in added ==> HasClusterAt(clusters, m.coordinate) by {
      forall m | m in added
        ensures HasClusterAt(clusters, m.coordinate)
      {
        var i :| 0 <= i < |added| && added[i] == m;
        assert Coordinate(r.toAdd[i]) == m.coordinate;
      }
    }
    assert forall c :: c in r.toAdd ==> MarkerOf(c) in added by {
      forall c | c in r.toAdd
        ensures MarkerOf(c) in added
      {
        var i :| 0 <= i < |r.toAdd| && r.toAdd[i] == c;
        assert added[i] == MarkerOf(c);
      }
    }
    r.kept + added
  }
}

=== FILE: reconcile_properties.dfy ===
/** What a run of `updateMarkers` guarantees about the next run, and the behaviours at the
    edges: a marker with a stale count, coincident clusters, the first and second run over
    one cluster. */
module ReconcileProperties {
  import opened Wrappers
  import opened Geo
  import opened Features
  import opened MarkerReconciler

  /** A sequence with no element is empty. */
  lemma NoElementMeansEmpty<T>(s: seq<T>)
    ensures (forall x :: x !in s) ==> s == []
  {
    if s != [] {
      assert s[0] in s;
    }
  }

  /** When every marker sits at one of the coordinates, all of them are kept, in order. */
  lemma {:induction false} KeptAll(markers: seq<Marker>, coords: seq<GeoPoint>)
    requires forall m :: m in markers ==> m.coordinate in coords
    ensures Kept(markers, coords) == markers
  {
    if |markers| > 0 {
      var init, last := markers[..|markers| - 1], markers[|markers| - 1];
      assert markers == init + [last];
      assert last.coordinate in coords;
      assert Kept(markers, coords) == Kept(init, coords) + [last];
      KeptAll(init, coords);
    }
  }

  /** After an update every marker sits on a cluster or point of the result and every
      cluster or point of the result is shown. */
  lemma UpdatedMapMatchesResult(displayed: seq<Marker>, clusters: seq<Feature>)
    ensures forall m :: m in Apply(displayed, clusters) ==> HasClusterAt(clusters, m.coordinate)
    ensures forall c :: c in clusters ==> AlreadyShown(Apply(displayed, clusters), c)
  {
  }

  /** Idempotence, removals: running the reconciliation again over the markers it left on
      the map, with the same result from the engine, removes nothing. */
  lemma SecondUpdateRemovesNothing(displayed: seq<Marker>, clusters: seq<Feature>)
    ensures Reconcile(Apply(displayed, clusters), clusters).toRemove == []
  {
    UpdatedMapMatchesResult(displayed, clusters);
    NoElementMeansEmpty(Reconcile(Apply(displayed, clusters), clusters).toRemove);
  }

  /** Idempotence, additions: running the reconciliation again over the markers it left on
      the map, with the same result from the engine, adds nothing. */
  lemma SecondUpdateAddsNothing(displayed: seq<Marker>, clusters: seq<Feature>)
    ensures Reconcile(Apply(displayed, clusters), clusters).toAdd == []
  {
    UpdatedMapMatchesResult(displayed, clusters);
    NoElementMeansEmpty(Reconcile(Apply(displayed, clusters), clusters).toAdd);
  }

  /** Fixed point: a second update with the same engine result keeps every marker, in
      order, and so leaves the map exactly as the first update left it. */
  lemma ApplyIsFixedPoint(displayed: seq<Marker>, clusters: seq<Feature>)
    ensures Reconcile(Apply(displayed, clusters), clusters).kept == Apply(displayed, clusters)
    ensures Apply(Apply(displayed, clusters), clusters) == Apply(displayed, clusters)
  {
    var shown := Apply(displayed, clusters);
    UpdatedMapMatchesResult(displayed, clusters);
    KeptAll(shown, ClusterCoords(clusters));
    SecondUpdateAddsNothing(displayed, clusters);
    assert MarkersFor([]) == [];
  }

  /** The stale-count quirk: a marker at a coordinate the result still has, but whose tag
      differs from the count of the cluster there, is not removed; when no marker shows that
      cluster, a new marker is added beside it, so two different markers end up at one
      coordinate. */
  lemma StaleMarkerSurvives(displayed: seq<Marker>, clusters: seq<Feature>, m: Marker, c: Feature)
    requires m in displayed && c in clusters
    requires m.coordinate == Coordinate(c) && m.tag != c.pointCount
    requires !AlreadyShown(displayed, c)
    ensures m in Reconcile(displayed, clusters).kept
    ensures c in Reconcile(displayed, clusters).toAdd
    ensures m in Apply(displayed, clusters) && MarkerOf(c) in Apply(displayed, clusters)
    ensures m != MarkerOf(c) && m.coordinate == MarkerOf(c).coordinate
  {
  }

  /** Two positions holding the same value make it occur at least twice. */
  lemma TwoPositionsCountTwice<T>(s: seq<T>, i: int, j: int)
    requires 0 <= i < j < |s| && s[i] == s[j]
    ensures multiset(s)[s[i]] >= 2
  {
    assert s == s[..i] + [s[i]] + s[i + 1..j] + [s[j]] + s[j + 1..];
  }

  /** No deduplication: two clusters of the result at one coordinate, neither of them shown
      yet, both get a new marker; when they are equal records, the feature is added twice. */
  lemma CoincidentClustersBothAdded(displayed: seq<Marker>, clusters: seq<Feature>, i: int, j: int)
    requires 0 <= i < j < |clusters|
    requires Coordinate(clusters[i]) == Coordinate(clusters[j])
    requires !AlreadyShown(displayed, clusters[i]) && !AlreadyShown(displayed, clusters[j])
    ensures clusters[i] in Reconcile(displayed, clusters).toAdd
    ensures clusters[j] in Reconcile(displayed, clusters).toAdd
    ensures clusters[i] == clusters[j] ==> multiset(Reconcile(displayed, clusters).toAdd)[clusters[i]] >= 2
  {
    if clusters[i] == clusters[j] {
      TwoPositionsCountTwice(clusters, i, j);
      ReconcileCounts(displayed, clusters);
    }
  }

  /** A cluster of five points at one place. */
  function FiveAt(lat: real, lng: real): Feature {
    Feature(Position(lng, lat), Some(5))
  }

  /** First run over one cluster of five: its marker is added and nothing is removed; second
      run with that marker on the map: nothing is removed and nothing is added. */
  lemma SingleClusterScenario()
    ensures Reconcile([], [FiveAt(37.5, -122.0)]).toRemove == []
    ensures Reconcile([], [FiveAt(37.5, -122.0)]).toAdd == [FiveAt(37.5, -122.0)]
    ensures Reconcile([MarkerOf(FiveAt(37.5, -122.0))], [FiveAt(37.5, -122.0)]).toRemove == []
    ensures Reconcile([MarkerOf(FiveAt(37.5, -122.0))], [FiveAt(37.5, -122.0)]).toAdd == []
  {
    var c := FiveAt(37.5, -122.0);
    var m := MarkerOf(c);
    assert m.coordinate == GeoPoint(37.5, -122.0) && m.tag == Some(5);
    assert Represents(m, c);
    NoElementMeansEmpty(Reconcile([], [c]).toRemove);
    NoElementMeansEmpty(Reconcile([m], [c]).toRemove);
    NoElementMeansEmpty(Reconcile([m], [c]).toAdd);
  }
}

=== FILE: update_markers.dfy ===
/** `updateMarkers` as the activity runs it: the removal loop over the map's markers, the
    nested loop that collects the features already shown, `removeAll`, and one `addMarker`
    per remaining feature. The map's marker collection is a value passed in and returned. */
module MarkerUpdate {
  import opened Geo
  import opened Features
  import opened MarkerReconciler

  /** The removal loop: a marker is removed when every cluster coordinate differs from its
      own; the others stay, in order. */
  method RemoveStaleMarkers(displayed: seq<Marker>, clusterCoords: seq<GeoPoint>) returns (live: seq<Marker>)
    ensures live == Kept(displayed, clusterCoords)
  {
    live := [];
    for k := 0 to |displayed|
      invariant live == Kept(displayed[..k], clusterCoords)
    {
      var marker := displayed[k];
      assert displayed[..k + 1][..k] == displayed[..k];
      assert Kept(displayed[..k + 1], clusterCoords)
          == if marker.coordinate in clusterCoords then Kept(displayed[..k], clusterCoords) + [marker]
             else Kept(displayed[..k], clusterCoords);
      if forall j | 0 <= j < |clusterCoords| :: marker.coordinate != clusterCoords[j] {
        // the marker leaves the map
        assert marker.coordinate !in clusterCoords;
      } else {
        live := live + [marker];
      }
    }
    assert displayed[..|displayed|] == displayed;
  }

  /** The inner loop for one cluster: appends the cluster once for every surviving marker at
      its coordinate whose tag equals its count. */
  method CollectIfShown(live: seq<Marker>, cluster: Feature, clusterCoord: GeoPoint, found: seq<Feature>)
    returns (clustersToRemove: seq<Feature>)
    requires clusterCoord == Coordinate(cluster)
    ensures forall c :: c in clustersToRemove <==> c in found || (c == cluster && AlreadyShown(live, cluster))
  {
    clustersToRemove := found;
    for k := 0 to |live|
      invariant forall c :: c in clustersToRemove <==> c in found || (c == cluster && AlreadyShown(live[..k], cluster))
    {
      var marker := live[k];
      assert live[..k + 1] == live[..k] + [marker];
      if marker.coordinate == clusterCoord && cluster.pointCount == marker.tag {
        assert Represents(marker, cluster);
        clustersToRemove := clustersToRemove + [cluster];
      }
    }
    assert live[..|live|] == live;
  }

  /** The outer loop: collects exactly the clusters that some surviving marker already shows. */
  method CollectShown(live: seq<Marker>, clusters: seq<Feature>, clusterCoords: seq<GeoPoint>)
    returns (clustersToRemove: seq<Feature>)
    requires clusterCoords == ClusterCoords(clusters)
    ensures forall c :: c in clusters ==> (c in clustersToRemove <==> AlreadyShown(live, c))
    ensures forall c :: c in clustersToRemove ==> c in clusters
  {
    clustersToRemove := [];
    for i := 0 to |clusters|
      invariant forall c :: c in clustersToRemove ==> c in clusters[..i] && AlreadyShown(live, c)
      invariant forall j :: 0 <= j < i && AlreadyShown(live, clusters[j]) ==> clusters[j] in clustersToRemove
    {
      assert clusters[..i + 1] == clusters[..i] + [clusters[i]];
      clustersToRemove := CollectIfShown(live, clusters[i], clusterCoords[i], clustersToRemove);
    }
    assert clusters[..|clusters|] == clusters;
  }

  /** `clusters.removeAll(clustersToRemove)`: when the collected clusters are exactly the
      shown ones, what is left is the features to add. */
  method RemoveShown(live: seq<Marker>, clusters: seq<Feature>, clustersToRemove: seq<Feature>)
    returns (remaining: seq<Feature>)
    requires forall c :: c in clusters ==> (c in clustersToRemove <==> AlreadyShown(live, c))
    ensures remaining == ToAdd(live, clusters)
  {
    remaining := [];
    for i := 0 to |clusters|
      invariant remaining == ToAdd(live, clusters[..i])
    {
      var cluster := clusters[i];
      assert clusters[..i + 1][..i] == clusters[..i];
      assert ToAdd(live, clusters[..i + 1])
          == if AlreadyShown(live, cluster) then ToAdd(live, clusters[..i]) else ToAdd(live, clusters[..i]) + [cluster];
      assert cluster in clusters;
      if cluster !in clustersToRemove {
        remaining := remaining + [cluster];
      }
    }
    assert clusters[..|clusters|] == clusters;
  }

  /** The `addMarker` loop: one new marker per remaining feature, after the live ones. */
  method AddMarkers(live: seq<Marker>, remaining: seq<Feature>) returns (shown: seq<Marker>)
    ensures shown == live + MarkersFor(remaining)
  {
    shown := live;
    for i := 0 to |remaining|
      invariant shown == live + MarkersFor(remaining[..i])
    {
      assert MarkersFor(remaining[..i + 1]) == MarkersFor(remaining[..i]) + [MarkerOf(remaining[i])];
      shown := shown + [MarkerOf(remaining[i])];
    }
    assert remaining[..|remaining|] == remaining;
  }

  /** `updateMarkers` after the engine query: leaves on the map exactly the markers of the
      reconciliation, the ones that stay and then a new marker for every feature of the
      result not already shown. */
  method UpdateMarkers(displayed: seq<Marker>, clusters: seq<Feature>) returns (shown: seq<Marker>)
    ensures shown == Apply(displayed, clusters)
  {
    var clusterCoords := ClusterCoords(clusters);
    var live := RemoveStaleMarkers(displayed, clusterCoords);
    var clustersToRemove := CollectShown(live, clusters, clusterCoords);
    var remaining := RemoveShown(live, clusters, clustersToRemove);
    shown := AddMarkers(live, remaining);
  }
}

=== FILE: wrappers.dfy ===
/** The optional values of the model: Kotlin's nullable `Any?` map lookups and marker tags. */
module Wrappers {

  /** `None` plays the part of Kotlin's `null`; equality is value equality, so `None == None`. */
  datatype Option<+T> = None | Some(value: T)
}
